=== FILE: README.md ===
# Feature importance analyzer — Dafny model

This project models `FeatureImportanceAnalyzer`, which condenses a
samples-by-features matrix of SHAP attribution values into per-feature
metrics, selects the features whose mean absolute attribution exceeds a
threshold, and reports every feature's metrics as table rows.

The model has four modules:

- `Results` (`results.dfy`): `Option` and `Result`. The analyzer's metrics are an `Option` that is `None` until computed. Raised errors become `Err`.
- `Magnitude` (`magnitude.dfy`): the mean-absolute reduction of an attribution matrix (`seq<seq<real>>`, rectangular) to one value per feature. It has a column-wise definition, bounds lemmas, and a row-by-row accumulating method proved equal to that definition.
- `Subsequence` (`subsequence.dfy`): order-preserving subsequences and the small lemmas about them that the selection proofs use.
- `FeatureImportance` (`feature_importance.dfy`): the analyzer session `Analyzer(inputSet, featureNames, metrics)`, `ComputeMetrics`, `ValidateFeatureNames`, the threshold selection, `AnalyzeFeatures`, and `WriteMetricsRows` (the report header and rows). Errors are `ShapeMismatch(nameCount, columnCount)` and `MetricsNotComputed`. `DefaultThreshold` is 0.05, and `AnalyzeFeaturesByDefault` applies it.

Magnitudes and thresholds are Dafny `real`. The attribution matrix is a
parameter of `ComputeMetrics`, because the explainer that produces it is a
foreign library. The standard deviations that `np.std` computes from that
matrix are a parameter too, because they need a square root and floating
point (see "## Left out").

Three behaviours of the code shape the model:

- `analyze_features` validates the feature names first and never checks that metrics exist. A name-count mismatch therefore raises the shape error whether or not metrics were computed. The code reads `self.metrics` only inside the selection loop, so only after validation passes and only when there is at least one feature name. Without metrics, that read fails with an attribute error. So `AnalyzeFeatures` requires metrics only for sessions with at least one name, where the names match the input's columns. With no names, the result is empty whether or not metrics exist.
- Only `write_metrics_to_csv` checks for missing metrics. `WriteMetricsRows` returns `Err(MetricsNotComputed)` in that case.
- Feature names are never checked to be distinct. The model allows repeated names, and the selection result has one record per selected feature index, not per distinct name.

The shape error in the code is a `ValueError` with a fixed message. Attaching the name count and the column count to `ShapeMismatch(nameCount, columnCount)` is a modelling choice.

## Model

| member | source | states |
|---|---|---|
| Magnitude.MeanMagnitudeBounds | feature_importance_analyzer.py:26 | every feature's mean magnitude is at least 0 and at most the largest absolute attribution in that feature's column |
| Magnitude.MeanMagnitudeZeroIff | feature_importance_analyzer.py:26 | a feature's mean magnitude is 0 exactly when every attribution in its column is 0 |
| Magnitude.MeanMagnitudeByRows | feature_importance_analyzer.py:26 | accumulating absolute values row by row and dividing by the sample count gives the column-wise mean of absolute values |
| Magnitude.ColumnAbsSum | feature_importance_analyzer.py:26 | the sum of absolute attributions over a prefix of the samples is never negative |
| Magnitude.ColumnMaxAbs | feature_importance_analyzer.py:26 | the column maximum bounds every absolute attribution in the column and is attained by one of them |
| Magnitude.MeanMagnitude | feature_importance_analyzer.py:26 | one value per feature column; each value times the sample count equals the sum of the column's absolute attributions, so it is the column's mean absolute value |
| FeatureImportance.ComputeMetrics | feature_importance_analyzer.py:26-32 | stores metrics in the session and leaves the input set and names unchanged; the stored mean magnitudes are exactly the column-wise means of absolute attributions, one per column, each between 0 and the column's largest absolute value; the standard deviations are kept as given |
| FeatureImportance.ValidateFeatureNames | feature_importance_analyzer.py:61-63 | succeeds exactly when the name count equals the first input row's length, and then returns the names unchanged; otherwise it fails with a shape mismatch that carries both counts |
| FeatureImportance.SelectFrom | feature_importance_analyzer.py:43-51 | selecting from feature `i` onward keeps at most `n - i` records, and every kept record's magnitude is strictly above the threshold |
| FeatureImportance.AnalyzeFeatures | feature_importance_analyzer.py:42-51 | fails with a shape mismatch exactly when the name count differs from the input's column count, whatever the threshold; a session without metrics still gets that shape error; with no names it returns no records, even without metrics; otherwise it returns one record per feature index above the threshold (so at most one record per declared feature), and feature `i`'s record is in the result exactly when its magnitude is strictly above the threshold; the result keeps declaration order, both as records and as names |
| FeatureImportance.AnalyzeFeaturesByDefault | feature_importance_analyzer.py:34-51 | is the analysis at threshold 0.05; it fails exactly on a name-count mismatch; otherwise feature `i` is selected exactly when its magnitude is strictly above 0.05 |
| FeatureImportance.MismatchFailsBeforeMetrics | feature_importance_analyzer.py:42-45 | a name-count mismatch yields the shape error, carrying both counts, whether or not metrics were computed, for any threshold |
| FeatureImportance.SelectFromCount | feature_importance_analyzer.py:44-50 | the selection from index `i` onward has exactly as many records as there are indices from `i` onward whose magnitude is above the threshold |
| FeatureImportance.SelectedRecordsFromOneIndex | feature_importance_analyzer.py:46-50 | every selected record is the record of one feature index whose magnitude is above the threshold, with its name, magnitude and std_dev all taken from that index |
| FeatureImportance.SelectFromMembership | feature_importance_analyzer.py:44-50 | from index `i` onward, feature `j`'s record is kept exactly when its magnitude exceeds the threshold |
| FeatureImportance.SelectMembership | feature_importance_analyzer.py:44-50 | feature `i`'s record (name, magnitude and std_dev all at index `i`) is selected exactly when its magnitude is strictly greater than the threshold; equality excludes it |
| FeatureImportance.SelectFromIsSubseq | feature_importance_analyzer.py:44-50 | the selection from index `i` onward is an ordered subsequence of the records from `i` onward |
| FeatureImportance.SelectIsSubseqOfAll | feature_importance_analyzer.py:44-50 | the selected records are an ordered subsequence of all records, so they are never reordered by magnitude |
| FeatureImportance.SelectFromNamesInOrder | feature_importance_analyzer.py:44-50 | the names of the selection from index `i` onward are an ordered subsequence of the names from `i` onward |
| FeatureImportance.SelectedNamesInOrder | feature_importance_analyzer.py:44-50 | the selected feature names are an ordered subsequence of the declared feature names |
| FeatureImportance.SelectFromMonotone | feature_importance_analyzer.py:45 | for `t1 <= t2`, the selection at `t2` is a subsequence of the selection at `t1` |
| FeatureImportance.AnalyzeMonotone | feature_importance_analyzer.py:42-51 | the analysis succeeds or fails alike for any two thresholds; when it succeeds, raising the threshold gives a subsequence of the earlier result |
| FeatureImportance.SelectFromKeepsAll | feature_importance_analyzer.py:44-50 | when every magnitude from index `i` onward exceeds the threshold, the selection from `i` onward is every record from `i` onward |
| FeatureImportance.NegativeThresholdKeepsNonNegative | feature_importance_analyzer.py:42-51 | on a session whose names match and whose magnitudes are all non-negative, any negative threshold returns every record in declaration order |
| FeatureImportance.NegativeThresholdSelectsAll | feature_importance_analyzer.py:26-51 | after metrics are computed for a matching input, any negative threshold selects every feature, in declaration order |
| FeatureImportance.WriteMetricsRows | feature_importance_analyzer.py:72-82 | fails exactly when the metrics were never computed; otherwise the header is `feature, mean_magnitude, std_dev` and row `i` holds name `i` with mean magnitude `i` and std_dev `i`, one row per name |
| FeatureImportance.ReportColumns | feature_importance_analyzer.py:75-82 | projecting the report rows onto their three columns gives the feature names and, for each name, its mean magnitude and standard deviation |
| FeatureImportance.NoNamesSelectNothing | feature_importance_analyzer.py:42-51 | a session with no feature names and an empty first row can be analyzed without metrics, and the result is empty |
| FeatureImportance.SelectionWithinReport | feature_importance_analyzer.py:42-82 | the important features are an ordered subsequence of the report rows |
| FeatureImportance.ComputedMetricsEnableReport | feature_importance_analyzer.py:72-82 | the writer fails on a session without metrics; after metrics are computed for a matching input, it succeeds with one row per feature name |
| FeatureImportance.WorkedExample | feature_importance_analyzer.py:26-51 | the attributions `[[0.1,-0.2],[0.3,0.0],[-0.05,0.4]]` give mean magnitudes `[0.15, 0.2]`, and threshold 0.1 selects `age` then `income` |

## Left out

- The SHAP `TreeExplainer` call (feature_importance_analyzer.py:24-25) is a foreign library. The attribution matrix it returns is a parameter of `ComputeMetrics`.
- The standard deviation (`np.std`, feature_importance_analyzer.py:27) needs a square root and floating point. It is a per-feature parameter that is only copied into records and rows.
- IEEE floating point: magnitudes and thresholds are exact reals. Rounding in the mean is not modelled.
- Opening and writing the CSV file, `csv.DictWriter` quoting, the default file name and the final `print` (feature_importance_analyzer.py:84-89) are I/O. `WriteMetricsRows` models only the header and the rows written.
- The `pandas` column lookup that `input_set[0]` performs on a data frame is not modelled. The input set is a sequence of rows, and the first row's length is the column count.
- Calls that crash in the source with an index or attribute error are preconditions, not error results. These are: `AnalyzeFeatures` on a session with at least one feature name, whose names pass validation but whose metrics were never computed; and validation of an empty input set. A mean-magnitude vector shorter than the names crashes the selection too, and a short standard-deviation vector crashes it once a feature without one is selected. `compute_metrics` always produces two vectors of the attribution matrix's column count, so either case can arise only when metrics are set by hand. `Analyzable` requires both vectors to cover every name.
- A mean over zero samples (numpy returns NaN) is excluded: `ComputeMetrics` requires at least one attribution row.
- shap_demo.py is a driver script. It loads data, trains a model and prints, with no logic of its own.
- Determinism of repeated metric computation holds trivially, because every operation here is a pure function.

=== FILE: feature_importance.dfy ===
/**
 * The feature importance analyzer: a session holding an input set, feature
 * names and (once computed) per-feature metrics; shape validation; threshold
 * selection of important features; and the rows of the metrics report.
 */
module FeatureImportance {
  import opened Results
  import opened Magnitude
  import opened Subsequence

  /** Threshold used by the selection when the caller gives none. */
  const DefaultThreshold: real := 0.05

  /** Column names of the metrics report, in column order. */
  const ReportHeader: seq<string> := ["feature", "mean_magnitude", "std_dev"]

  /** Two parallel per-feature vectors: mean absolute attribution and standard deviation. */
  datatype Metrics = Metrics(meanMagnitude: seq<real>, stdDev: seq<real>)

  /** One feature's metrics, as a selection result entry or a report row. */
  datatype FeatureRecord = FeatureRecord(feature: string, meanMagnitude: real, stdDev: real)

  /** The errors the analyzer raises. */
  datatype Error =
    | ShapeMismatch(nameCount: nat, columnCount: nat)
    | MetricsNotComputed

  /** The analyzer session; `metrics` is `None` until the metrics are computed. */
  datatype Analyzer = Analyzer(inputSet: seq<seq<real>>, featureNames: seq<string>, metrics: Option<Metrics>)

  /** The report: header fields and one row per feature. */
  datatype Report = Report(header: seq<string>, rows: seq<FeatureRecord>)

  /** Both metric vectors have an entry for each of the first `n` features. */
  predicate Covers(m: Metrics, n: nat)
  {
    n <= |m.meanMagnitude| && n <= |m.stdDev|
  }

  /**
   * What the analysis needs to run without crashing: a first input row to
   * validate against and, once validation passes with at least one name,
   * metrics for every name (with no names the loop never reads the metrics).
   */
  predicate Analyzable(an: Analyzer)
  {
    && |an.inputSet| > 0
    && (|an.featureNames| == |an.inputSet[0]| && |an.featureNames| > 0 ==>
          an.metrics.Some? && Covers(an.metrics.value, |an.featureNames|))
  }

  /** The indices in `lo..hi` whose mean magnitude is strictly above the threshold. */
  function IndicesAbove(m: Metrics, threshold: real, lo: nat, hi: nat): (ix: set<nat>)
    requires hi <= |m.meanMagnitude|
  {
    set j: nat | lo <= j < hi && m.meanMagnitude[j] > threshold
  }

  /** The record of feature `i`: its name and its metrics, all from index `i`. */
  function RecordAt(names: seq<string>, m: Metrics, i: nat): (rec: FeatureRecord)
    requires i < |names| && Covers(m, |names|)
  {
    FeatureRecord(names[i], m.meanMagnitude[i], m.stdDev[i])
  }

  /** The records of all features in declaration order. */
  function AllRecords(names: seq<string>, m: Metrics): (rs: seq<FeatureRecord>)
    requires Covers(m, |names|)
  {
    seq(|names|, i requires 0 <= i < |names| => RecordAt(names, m, i))
  }

  /** The feature-name column of a sequence of records. */
  function FeatureNames(rs: seq<FeatureRecord>): (names: seq<string>)
  {
    seq(|rs|, k requires 0 <= k < |rs| => rs[k].feature)
  }

  /** The mean-magnitude column of a sequence of records. */
  function MagnitudeColumn(rs: seq<FeatureRecord>): (col: seq<real>)
  {
    seq(|rs|, k requires 0 <= k < |rs| => rs[k].meanMagnitude)
  }

  /** The standard-deviation column of a sequence of records. */
  function StdDevColumn(rs: seq<FeatureRecord>): (col: seq<real>)
  {
    seq(|rs|, k requires 0 <= k < |rs| => rs[k].stdDev)
  }

  // ---------------------------------------------------------------------------
  // Metrics computation
  // ---------------------------------------------------------------------------

  /**
   * Stores the metrics of an attribution matrix in the session: the mean
   * absolute attribution of each column, and the given standard deviations.
   */
  function ComputeMetrics(an: Analyzer, attributions: seq<seq<real>>, stdDev: seq<real>): (r: Analyzer)
    requires |attributions| > 0 && Rectangular(attributions, |attributions[0]|)
    requires |stdDev| == |attributions[0]|
    ensures r.inputSet == an.inputSet && r.featureNames == an.featureNames
    ensures r.metrics.Some? && r.metrics.value.stdDev == stdDev
    ensures r.metrics.value.meanMagnitude == MeanMagnitude(attributions, |attributions[0]|)
    ensures |r.metrics.value.meanMagnitude| == |attributions[0]|
    ensures forall j :: 0 <= j < |attributions[0]| ==>
      0.0 <= r.metrics.value.meanMagnitude[j] <= ColumnMaxAbs(attributions, |attributions[0]|, j, |attributions|)
  {
    var cols := |attributions[0]|;
    MeanMagnitudeBounds(attributions, cols);
    an.(metrics := Some(Metrics(MeanMagnitude(attributions, cols), stdDev)))
  }

  // ---------------------------------------------------------------------------
  // Validation and selection
  // ---------------------------------------------------------------------------

  /** Checks that there is one feature name per column of the input set's first row. */
  function ValidateFeatureNames(an: Analyzer): (r: Result<seq<string>, Error>)
    requires |an.inputSet| > 0
    ensures r.Ok? <==> |an.featureNames| == |an.inputSet[0]|
    ensures r.Ok? ==> r.value == an.featureNames
    ensures r.Err? ==> r.error == ShapeMismatch(|an.featureNames|, |an.inputSet[0]|)
  {
    if |an.featureNames| != |an.inputSet[0]| then
      Err(ShapeMismatch(|an.featureNames|, |an.inputSet[0]|))
    else
      Ok(an.featureNames)
  }

  /**
   * The records of features `i..` whose mean magnitude is strictly above
   * the threshold, in declaration order.
   */
  function SelectFrom(names: seq<string>, m: Metrics, threshold: real, i: nat): (rs: seq<FeatureRecord>)
    requires i <= |names| && Covers(m, |names|)
    ensures |rs| <= |names| - i
    ensures forall k :: 0 <= k < |rs| ==> rs[k].meanMagnitude > threshold
    decreases |names| - i
  {
    if i == |names| then []
    else if m.meanMagnitude[i] > threshold then
      [RecordAt(names, m, i)] + SelectFrom(names, m, threshold, i + 1)
    else
      SelectFrom(names, m, threshold, i + 1)
  }

  /** The important features: all records whose mean magnitude exceeds the threshold. */
  function Select(names: seq<string>, m: Metrics, threshold: real): (rs: seq<FeatureRecord>)
    requires Covers(m, |names|)
  {
    SelectFrom(names, m, threshold, 0)
  }

  /**
   * Validates the feature names, then selects the important features from
   * the session's metrics.
   */
  function AnalyzeFeatures(an: Analyzer, threshold: real): (r: Result<seq<FeatureRecord>, Error>)
    requires Analyzable(an)
    ensures r.Err? <==> |an.featureNames| != |an.inputSet[0]|
    ensures r.Err? ==> r.error == ShapeMismatch(|an.featureNames|, |an.inputSet[0]|)
    ensures r.Ok? ==> |r.value| <= |an.featureNames|
    ensures r.Ok? && |an.featureNames| == 0 ==> r.value == []
    ensures r.Ok? && an.metrics.Some? ==>
      |r.value| == |IndicesAbove(an.metrics.value, threshold, 0, |an.featureNames|)|
    ensures r.Ok? ==> forall k :: 0 <= k < |r.value| ==> r.value[k].meanMagnitude > threshold
    ensures r.Ok? && an.metrics.Some? ==> forall i :: 0 <= i < |an.featureNames| ==>
      (RecordAt(an.featureNames, an.metrics.value, i) in r.value <==> an.metrics.value.meanMagnitude[i] > threshold)
    ensures r.Ok? && an.metrics.Some? ==> IsSubseq(r.value, AllRecords(an.featureNames, an.metrics.value))
    ensures r.Ok? ==> IsSubseq(FeatureNames(r.value), an.featureNames)
  {
    match ValidateFeatureNames(an)
    case Err(e) => Err(e)
    case Ok(names) =>
      if |names| == 0 then
        Ok([])
      else
        var m := an.metrics.value;
        SelectMembership(names, m, threshold);
        SelectIsSubseqOfAll(names, m, threshold);
        SelectedNamesInOrder(names, m, threshold);
        SelectFromCount(names, m, threshold, 0);
        Ok(Select(names, m, threshold))
  }

  /** The analysis with the default threshold. */
  function AnalyzeFeaturesByDefault(an: Analyzer): (r: Result<seq<FeatureRecord>, Error>)
    requires Analyzable(an)
    ensures r == AnalyzeFeatures(an, DefaultThreshold)
    ensures r.Err? <==> |an.featureNames| != |an.inputSet[0]|
    ensures r.Ok? ==> forall k :: 0 <= k < |r.value| ==> r.value[k].meanMagnitude > DefaultThreshold
    ensures r.Ok? && an.metrics.Some? ==> forall i :: 0 <= i < |an.featureNames| ==>
      (RecordAt(an.featureNames, an.metrics.value, i) in r.value <==> an.metrics.value.meanMagnitude[i] > DefaultThreshold)
  {
    AnalyzeFeatures(an, DefaultThreshold)
  }

  // ---------------------------------------------------------------------------
  // Report rows
  // ---------------------------------------------------------------------------

  /**
   * The report the writer emits: fails when the metrics were never computed,
   * otherwise the header and one row per feature name in declaration order.
   */
  function WriteMetricsRows(an: Analyzer): (r: Result<Report, Error>)
    requires an.metrics.Some? ==> Covers(an.metrics.value, |an.featureNames|)
    ensures r.Err? <==> an.metrics.None?
    ensures r.Err? ==> r.error == MetricsNotComputed
    ensures r.Ok? ==> r.value.header == ReportHeader
    ensures r.Ok? ==> |r.value.rows| == |an.featureNames|
    ensures r.Ok? ==> forall i :: 0 <= i < |an.featureNames| ==>
      && r.value.rows[i].feature == an.featureNames[i]
      && r.value.rows[i].meanMagnitude == an.metrics.value.meanMagnitude[i]
      && r.value.rows[i].stdDev == an.metrics.value.stdDev[i]
  {
    match an.metrics
    case None => Err(MetricsNotComputed)
    case Some(m) => Ok(Report(ReportHeader, AllRecords(an.featureNames, m)))
  }

  // ---------------------------------------------------------------------------
  // Properties of the selection
  // ---------------------------------------------------------------------------

  /** A feature `j >= i` is selected from `i` on exactly when its magnitude exceeds the threshold. */
  lemma {:induction false} SelectFromMembership(names: seq<string>, m: Metrics, threshold: real, i: nat)
    requires i <= |names| && Covers(m, |names|)
    ensures forall j :: i <= j < |names| ==>
      (RecordAt(names, m, j) in SelectFrom(names, m, threshold, i) <==> m.meanMagnitude[j] > threshold)
    decreases |names| - i
  {
    if i < |names| {
      SelectFromMembership(names, m, threshold, i + 1);
      var rs := SelectFrom(names, m, threshold, i);
      forall j | i <= j < |names|
        ensures RecordAt(names, m, j) in rs <==> m.meanMagnitude[j] > threshold
      {
        if RecordAt(names, m, j) in rs {
          var k :| 0 <= k < |rs| && rs[k] == RecordAt(names, m, j);
          assert rs[k].meanMagnitude > threshold;
        }
      }
    }
  }

  /** Feature `i` is selected exactly when its mean magnitude is strictly above the threshold. */
  lemma SelectMembership(names: seq<string>, m: Metrics, threshold: real)
    requires Covers(m, |names|)
    ensures forall i :: 0 <= i < |names| ==>
      (RecordAt(names, m, i) in Select(names, m, threshold) <==> m.meanMagnitude[i] > threshold)
  {
    SelectFromMembership(names, m, threshold, 0);
  }

  /** The selection from `i` on is a subsequence of the records from `i` on, in declaration order. */
  lemma {:induction false} SelectFromIsSubseq(names: seq<string>, m: Metrics, threshold: real, i: nat)
    requires i <= |names| && Covers(m, |names|)
    ensures IsSubseq(SelectFrom(names, m, threshold, i), AllRecords(names, m)[i..])
    decreases |names| - i
  {
    var all := AllRecords(names, m);
    if i < |names| {
      SelectFromIsSubseq(names, m, threshold, i + 1);
      assert all[i..] == [RecordAt(names, m, i)] + all[i + 1..];
      if m.meanMagnitude[i] > threshold {
        SubseqCons(RecordAt(names, m, i), SelectFrom(names, m, threshold, i + 1), all[i + 1..]);
      } else {
        SubseqSkip(RecordAt(names, m, i), SelectFrom(names, m, threshold, i + 1), all[i + 1..]);
      }
    }
  }

  /** The important features are a subsequence of all records: never reordered. */
  lemma SelectIsSubseqOfAll(names: seq<string>, m: Metrics, threshold: real)
    requires Covers(m, |names|)
    ensures IsSubseq(Select(names, m, threshold), AllRecords(names, m))
  {
    SelectFromIsSubseq(names, m, threshold, 0);
    assert AllRecords(names, m)[0..] == AllRecords(names, m);
  }

  /** The names of the selection from `i` on are a subsequence of the names from `i` on. */
  lemma {:induction false} SelectFromNamesInOrder(names: seq<string>, m: Metrics, threshold: real, i: nat)
    requires i <= |names| && Covers(m, |names|)
    ensures IsSubseq(FeatureNames(SelectFrom(names, m, threshold, i)), names[i..])
    decreases |names| - i
  {
    if i < |names| {
      SelectFromNamesInOrder(names, m, threshold, i + 1);
      var rest := SelectFrom(names, m, threshold, i + 1);
      assert names[i..] == [names[i]] + names[i + 1..];
      if m.meanMagnitude[i] > threshold {
        assert FeatureNames([RecordAt(names, m, i)] + rest) == [names[i]] + FeatureNames(rest);
        SubseqCons(names[i], FeatureNames(rest), names[i + 1..]);
      } else {
        SubseqSkip(names[i], FeatureNames(rest), names[i + 1..]);
      }
    }
  }

  /** The names of the important features appear in declaration order. */
  lemma SelectedNamesInOrder(names: seq<string>, m: Metrics, threshold: real)
    requires Covers(m, |names|)
    ensures IsSubseq(FeatureNames(Select(names, m, threshold)), names)
  {
    SelectFromNamesInOrder(names, m, threshold, 0);
    assert names[0..] == names;
  }

  /** The selection from `i` on has one record per index from `i` on above the threshold. */
  lemma {:induction false} SelectFromCount(names: seq<string>, m: Metrics, threshold: real, i: nat)
    requires i <= |names| && Covers(m, |names|)
    ensures |SelectFrom(names, m, threshold, i)| == |IndicesAbove(m, threshold, i, |names|)|
    decreases |names| - i
  {
    if i < |names| {
      SelectFromCount(names, m, threshold, i + 1);
      var here := IndicesAbove(m, threshold, i, |names|);
      var rest := IndicesAbove(m, threshold, i + 1, |names|);
      assert i !in rest;
      if m.meanMagnitude[i] > threshold {
        assert here == {i} + rest;
      } else {
        assert here == rest;
      }
    } else {
      assert IndicesAbove(m, threshold, i, |names|) == {};
    }
  }

  /**
   * Each selected record is the record of one feature index above the
   * threshold: name, magnitude and standard deviation all from that index.
   */
  lemma SelectedRecordsFromOneIndex(names: seq<string>, m: Metrics, threshold: real)
    requires Covers(m, |names|)
    ensures forall k :: 0 <= k < |Select(names, m, threshold)| ==>
      exists i :: 0 <= i < |names| && m.meanMagnitude[i] > threshold
        && Select(names, m, threshold)[k] == RecordAt(names, m, i)
  {
    var rs := Select(names, m, threshold);
    var all := AllRecords(names, m);
    SelectIsSubseqOfAll(names, m, threshold);
    SubseqMembers(rs, all);
    forall k | 0 <= k < |rs|
      ensures exists i :: 0 <= i < |names| && m.meanMagnitude[i] > threshold && rs[k] == RecordAt(names, m, i)
    {
      assert rs[k] in all;
      var i :| 0 <= i < |all| && all[i] == rs[k];
      assert rs[k].meanMagnitude > threshold;
    }
  }

  /** Raising the threshold only removes features: the result shrinks to a subsequence. */
  lemma {:induction false} SelectFromMonotone(names: seq<string>, m: Metrics, t1: real, t2: real, i: nat)
    requires i <= |names| && Covers(m, |names|) && t1 <= t2
    ensures IsSubseq(SelectFrom(names, m, t2, i), SelectFrom(names, m, t1, i))
    decreases |names| - i
  {
    if i < |names| {
      SelectFromMonotone(names, m, t1, t2, i + 1);
      var low := SelectFrom(names, m, t1, i + 1);
      var high := SelectFrom(names, m, t2, i + 1);
      if m.meanMagnitude[i] > t2 {
        SubseqCons(RecordAt(names, m, i), high, low);
      } else if m.meanMagnitude[i] > t1 {
        SubseqSkip(RecordAt(names, m, i), high, low);
      }
    }
  }

  /** The analysis is monotone in the threshold. */
  lemma AnalyzeMonotone(an: Analyzer, t1: real, t2: real)
    requires Analyzable(an)
    requires t1 <= t2
    ensures AnalyzeFeatures(an, t1).Ok? <==> AnalyzeFeatures(an, t2).Ok?
    ensures AnalyzeFeatures(an, t1).Ok? ==>
      IsSubseq(AnalyzeFeatures(an, t2).value, AnalyzeFeatures(an, t1).value)
  {
    if |an.featureNames| == |an.inputSet[0]| && |an.featureNames| > 0 {
      SelectFromMonotone(an.featureNames, an.metrics.value, t1, t2, 0);
    }
  }

  /** When every magnitude from `i` on exceeds the threshold, every record from `i` on is kept. */
  lemma {:induction false} SelectFromKeepsAll(names: seq<string>, m: Metrics, threshold: real, i: nat)
    requires i <= |names| && Covers(m, |names|)
    requires forall j :: i <= j < |names| ==> m.meanMagnitude[j] > threshold
    ensures SelectFrom(names, m, threshold, i) == AllRecords(names, m)[i..]
    decreases |names| - i
  {
    if i < |names| {
      SelectFromKeepsAll(names, m, threshold, i + 1);
      assert AllRecords(names, m)[i..] == [RecordAt(names, m, i)] + AllRecords(names, m)[i + 1..];
    }
  }

  /** When every feature's magnitude is non-negative, a negative threshold keeps every record. */
  lemma NegativeThresholdKeepsNonNegative(an: Analyzer, threshold: real)
    requires Analyzable(an) && an.metrics.Some? && |an.featureNames| == |an.inputSet[0]|
    requires Covers(an.metrics.value, |an.featureNames|)
    requires forall j :: 0 <= j < |an.featureNames| ==> an.metrics.value.meanMagnitude[j] >= 0.0
    requires threshold < 0.0
    ensures AnalyzeFeatures(an, threshold) == Ok(AllRecords(an.featureNames, an.metrics.value))
  {
    if |an.featureNames| > 0 {
      SelectFromKeepsAll(an.featureNames, an.metrics.value, threshold, 0);
      assert AllRecords(an.featureNames, an.metrics.value)[0..] == AllRecords(an.featureNames, an.metrics.value);
    }
  }

  /**
   * Mean magnitudes are never negative, so after computing metrics whose
   * shape matches the input set, a negative threshold selects every feature.
   */
  lemma NegativeThresholdSelectsAll(an: Analyzer, attributions: seq<seq<real>>, stdDev: seq<real>, threshold: real)
    requires |an.inputSet| > 0 && |an.featureNames| == |an.inputSet[0]|
    requires |attributions| > 0 && Rectangular(attributions, |an.inputSet[0]|)
    requires |stdDev| == |an.inputSet[0]|
    requires threshold < 0.0
    ensures AnalyzeFeatures(ComputeMetrics(an, attributions, stdDev), threshold)
      == Ok(AllRecords(an.featureNames, ComputeMetrics(an, attributions, stdDev).metrics.value))
  {
    NegativeThresholdKeepsNonNegative(ComputeMetrics(an, attributions, stdDev), threshold);
  }


  /**
   * Validation runs before the metrics are read: a session with mismatched
   * names fails with the shape error whether or not metrics were computed.
   */
  lemma MismatchFailsBeforeMetrics(an: Analyzer, threshold: real)
    requires |an.inputSet| > 0 && |an.featureNames| != |an.inputSet[0]|
    ensures AnalyzeFeatures(an, threshold) == Err(ShapeMismatch(|an.featureNames|, |an.inputSet[0]|))
    ensures AnalyzeFeatures(an.(metrics := None), threshold) == AnalyzeFeatures(an, threshold)
  {
  }

  /** With no feature names, the analysis returns no records even before metrics exist. */
  lemma NoNamesSelectNothing(an: Analyzer, threshold: real)
    requires |an.inputSet| > 0 && |an.featureNames| == 0 && |an.inputSet[0]| == 0
    ensures Analyzable(an)
    ensures AnalyzeFeatures(an, threshold) == Ok([])
  {
  }

  // ---------------------------------------------------------------------------
  // Properties of the report
  // ---------------------------------------------------------------------------

  /**
   * Reading the report's columns back gives the feature names and, for each
   * name, its mean magnitude and standard deviation.
   */
  lemma ReportColumns(an: Analyzer)
    requires an.metrics.Some? && Covers(an.metrics.value, |an.featureNames|)
    ensures WriteMetricsRows(an).Ok?
    ensures FeatureNames(WriteMetricsRows(an).value.rows) == an.featureNames
    ensures MagnitudeColumn(WriteMetricsRows(an).value.rows)
      == an.metrics.value.meanMagnitude[..|an.featureNames|]
    ensures StdDevColumn(WriteMetricsRows(an).value.rows)
      == an.metrics.value.stdDev[..|an.featureNames|]
  {
  }

  /** The important features are a subsequence of the report's rows. */
  lemma SelectionWithinReport(an: Analyzer, threshold: real)
    requires Analyzable(an) && AnalyzeFeatures(an, threshold).Ok?
    requires WriteMetricsRows(an).Ok?
    ensures IsSubseq(AnalyzeFeatures(an, threshold).value, WriteMetricsRows(an).value.rows)
  {
  }

  /** Computing metrics whose shape matches the input set enables the writer, with one row per name. */
  lemma ComputedMetricsEnableReport(an: Analyzer, attributions: seq<seq<real>>, stdDev: seq<real>)
    requires |an.inputSet| > 0 && |an.featureNames| == |an.inputSet[0]|
    requires |attributions| > 0 && Rectangular(attributions, |an.inputSet[0]|)
    requires |stdDev| == |an.inputSet[0]|
    ensures WriteMetricsRows(an.(metrics := None)) == Err(MetricsNotComputed)
    ensures WriteMetricsRows(ComputeMetrics(an, attributions, stdDev)).Ok?
    ensures |WriteMetricsRows(ComputeMetrics(an, attributions, stdDev)).value.rows| == |an.featureNames|
  {
  }

  // ---------------------------------------------------------------------------
  // A worked example
  // ---------------------------------------------------------------------------

  /**
   * Three samples, two features: mean magnitudes 0.15 and 0.2, both above
   * 0.1, so both features are selected, in declaration order.
   */
  lemma WorkedExample(stdDev: seq<real>)
    requires |stdDev| == 2
    ensures var a := [[0.1, -0.2], [0.3, 0.0], [-0.05, 0.4]];
      var an := ComputeMetrics(Analyzer([[1.0, 2.0], [3.0, 4.0], [5.0, 6.0]], ["age", "income"], None), a, stdDev);
      && an.metrics.value.meanMagnitude == [0.15, 0.2]
      && AnalyzeFeatures(an, 0.1) == Ok([
        FeatureRecord("age", 0.15, stdDev[0]),
        FeatureRecord("income", 0.2, stdDev[1])])
  {
    var a := [[0.1, -0.2], [0.3, 0.0], [-0.05, 0.4]];
    var names := ["age", "income"];
    assert Rectangular(a, 2);
    assert ColumnAbsSum(a, 2, 0, 3) == 0.45;
    assert ColumnAbsSum(a, 2, 1, 3) == 0.6;
    var mm := MeanMagnitude(a, 2);
    assert mm == [0.15, 0.2];
    var an := ComputeMetrics(Analyzer([[1.0, 2.0], [3.0, 4.0], [5.0, 6.0]], names, None), a, stdDev);
    var m := Metrics(mm, stdDev);
    assert an.metrics.value == m;
    assert SelectFrom(names, m, 0.1, 2) == [];
    assert SelectFrom(names, m, 0.1, 1) == [FeatureRecord("income", 0.2, stdDev[1])];
    assert SelectFrom(names, m, 0.1, 0) == [FeatureRecord("age", 0.15, stdDev[0]), FeatureRecord("income", 0.2, stdDev[1])];
  }
}

=== FILE: magnitude.dfy ===
/**
 * The reduction of a samples-by-features attribution matrix to one mean
 * absolute attribution per feature (the column-wise mean of absolute values).
 */
module Magnitude {

  /** Absolute value of a real. */
  function Abs(x: real): (r: real)
    ensures r >= 0.0
    ensures r == x || r == -x
  {
    if x < 0.0 then -x else x
  }

  /** Larger of two reals. */
  function Max(x: real, y: real): (r: real)
    ensures r >= x && r >= y
    ensures r == x || r == y
  {
    if x < y then y else x
  }

  /** Every row of `a` has exactly `cols` entries. */
  predicate Rectangular(a: seq<seq<real>>, cols: nat)
  {
    forall i :: 0 <= i < |a| ==> |a[i]| == cols
  }

  /** Sum of the absolute values of column `j` over the first `k` rows. */
  function ColumnAbsSum(a: seq<seq<real>>, cols: nat, j: nat, k: nat): (s: real)
    requires Rectangular(a, cols) && j < cols && k <= |a|
    ensures s >= 0.0
  {
    if k == 0 then 0.0 else ColumnAbsSum(a, cols, j, k - 1) + Abs(a[k - 1][j])
  }

  /** Largest absolute value of column `j` over the first `k` rows. */
  function ColumnMaxAbs(a: seq<seq<real>>, cols: nat, j: nat, k: nat): (m: real)
    requires Rectangular(a, cols) && j < cols && 1 <= k <= |a|
    ensures forall i :: 0 <= i < k ==> Abs(a[i][j]) <= m
    ensures exists i :: 0 <= i < k && m == Abs(a[i][j])
  {
    if k == 1 then Abs(a[0][j]) else Max(ColumnMaxAbs(a, cols, j, k - 1), Abs(a[k - 1][j]))
  }

  /**
   * The per-feature mean magnitude: entry `j` is the mean over all samples of
   * the absolute attribution of feature `j`.
   */
  function MeanMagnitude(a: seq<seq<real>>, cols: nat): (m: seq<real>)
    requires |a| > 0 && Rectangular(a, cols)
    ensures |m| == cols
    ensures forall j :: 0 <= j < cols ==> m[j] * (|a| as real) == ColumnAbsSum(a, cols, j, |a|)
  {
    seq(cols, j requires 0 <= j < cols => ColumnAbsSum(a, cols, j, |a|) / (|a| as real))
  }

  /** A column sum of `k` entries each at most `b` is at most `k * b`. */
  lemma {:induction false} ColumnAbsSumBounded(a: seq<seq<real>>, cols: nat, j: nat, k: nat, b: real)
    requires Rectangular(a, cols) && j < cols && k <= |a|
    requires forall i :: 0 <= i < k ==> Abs(a[i][j]) <= b
    ensures ColumnAbsSum(a, cols, j, k) <= (k as real) * b
  {
    if k > 0 {
      ColumnAbsSumBounded(a, cols, j, k - 1, b);
      assert (k as real) * b == ((k - 1) as real) * b + b;
    }
  }

  /** A column sum of absolute values vanishes exactly when every entry is zero. */
  lemma {:induction false} ColumnAbsSumZero(a: seq<seq<real>>, cols: nat, j: nat, k: nat)
    requires Rectangular(a, cols) && j < cols && k <= |a|
    ensures ColumnAbsSum(a, cols, j, k) == 0.0 <==> forall i :: 0 <= i < k ==> a[i][j] == 0.0
  {
    if k > 0 {
      ColumnAbsSumZero(a, cols, j, k - 1);
    }
  }

  /** Every mean magnitude lies between zero and the column's largest absolute attribution. */
  lemma MeanMagnitudeBounds(a: seq<seq<real>>, cols: nat)
    requires |a| > 0 && Rectangular(a, cols)
    ensures forall j :: 0 <= j < cols ==>
      0.0 <= MeanMagnitude(a, cols)[j] <= ColumnMaxAbs(a, cols, j, |a|)
  {
    var m := MeanMagnitude(a, cols);
    var n := |a| as real;
    forall j | 0 <= j < cols
      ensures 0.0 <= m[j] <= ColumnMaxAbs(a, cols, j, |a|)
    {
      var top := ColumnMaxAbs(a, cols, j, |a|);
      var s := ColumnAbsSum(a, cols, j, |a|);
      ColumnAbsSumBounded(a, cols, j, |a|, top);
      assert m[j] == s / n;
      QuotientBounded(s, n, top);
    }
  }

  /** Dividing a non-negative sum bounded by `n * b` by `n` gives a value in `[0, b]`. */
  lemma QuotientBounded(s: real, n: real, b: real)
    requires n > 0.0 && 0.0 <= s <= n * b
    ensures 0.0 <= s / n <= b
  {
    var q := s / n;
    assert q * n == s;
    if q > b {
      assert q * n > b * n;
    }
  }

  /** A feature's mean magnitude is zero exactly when all its attributions are zero. */
  lemma MeanMagnitudeZeroIff(a: seq<seq<real>>, cols: nat, j: nat)
    requires |a| > 0 && Rectangular(a, cols) && j < cols
    ensures MeanMagnitude(a, cols)[j] == 0.0 <==> forall i :: 0 <= i < |a| ==> a[i][j] == 0.0
  {
    ColumnAbsSumZero(a, cols, j, |a|);
    assert MeanMagnitude(a, cols)[j] == ColumnAbsSum(a, cols, j, |a|) / (|a| as real);
  }

  /**
   * Row-by-row accumulation of absolute values, then division by the sample
   * count, as a vectorised mean along the sample axis computes it; it agrees
   * with the column-wise definition.
   */
  method MeanMagnitudeByRows(a: seq<seq<real>>, cols: nat) returns (m: seq<real>)
    requires |a| > 0 && Rectangular(a, cols)
    ensures m == MeanMagnitude(a, cols)
  {
    var sums: seq<real> := seq(cols, _ => 0.0);
    var i := 0;
    while i < |a|
      invariant 0 <= i <= |a|
      invariant |sums| == cols
      invariant forall j :: 0 <= j < cols ==> sums[j] == ColumnAbsSum(a, cols, j, i)
    {
      var row := a[i];
      var next: seq<real> := [];
      var j := 0;
      while j < cols
        invariant 0 <= j <= cols
        invariant |next| == j
        invariant forall q :: 0 <= q < j ==> next[q] == sums[q] + Abs(row[q])
      {
        next := next + [sums[j] + Abs(row[j])];
        j := j + 1;
      }
      sums := next;
      i := i + 1;
    }
    m := seq(cols, j requires 0 <= j < cols => sums[j] / (|a| as real));
  }
}

=== FILE: results.dfy ===
/** Optional values and error-carrying results used by the analyzer model. */
module Results {

  /** A value that may be absent; the analyzer's metrics before they are computed. */
  datatype Option<+T> = None | Some(value: T)

  /** The outcome of an operation that raises a reportable error in the source. */
  datatype Result<+T, +E> = Ok(value: T) | Err(error: E)
}

=== FILE: subsequence.dfy ===
/** Order-preserving subsequences of sequences. */
module Subsequence {

  /** `xs` can be obtained from `ys` by deleting elements, keeping the order of the rest. */
  predicate IsSubseq<T(==)>(xs: seq<T>, ys: seq<T>)
    decreases |ys|
  {
    if |xs| == 0 then true
    else if |ys| == 0 then false
    else (xs[0] == ys[0] && IsSubseq(xs[1..], ys[1..])) || IsSubseq(xs, ys[1..])
  }

  /** Every element of a subsequence occurs in the sequence it is taken from. */
  lemma {:induction false} SubseqMembers<T>(xs: seq<T>, ys: seq<T>)
    requires IsSubseq(xs, ys)
    ensures forall x :: x in xs ==> x in ys
    decreases |ys|
  {
    if |xs| > 0 {
      if xs[0] == ys[0] && IsSubseq(xs[1..], ys[1..]) {
        SubseqMembers(xs[1..], ys[1..]);
        assert xs == [xs[0]] + xs[1..];
        assert ys == [ys[0]] + ys[1..];
      } else {
        SubseqMembers(xs, ys[1..]);
        assert ys == [ys[0]] + ys[1..];
      }
    }
  }

  /** Keeping a common head on both sides preserves the subsequence relation. */
  lemma SubseqCons<T>(x: T, xs: seq<T>, ys: seq<T>)
    requires IsSubseq(xs, ys)
    ensures IsSubseq([x] + xs, [x] + ys)
  {
    assert ([x] + xs)[1..] == xs;
    assert ([x] + ys)[1..] == ys;
  }

  /** Adding a head to the larger side only preserves the subsequence relation. */
  lemma SubseqSkip<T>(y: T, xs: seq<T>, ys: seq<T>)
    requires IsSubseq(xs, ys)
    ensures IsSubseq(xs, [y] + ys)
  {
    assert ([y] + ys)[1..] == ys;
  }
}
